=== FILE: README.md ===
# Spotify web client: playback controller, token refresh and log wire format

A Dafny model of the decision logic of a browser Spotify client. The rest of
the client is React and Redux glue. The model covers four pieces:

- **The web-playback controller** (`src/utils/spotify/webPlayback.tsx`). A
  track whose name has an *extended-timeout override* gets a seek to its start
  offset, and a skip timer calls `nextTrack` after its forced duration. A null
  player state stops state polling and starts the device wait. A device-wait
  tick that sees a state starts polling again. Teardown clears the timers and
  intervals. Each callback is a pure step: it takes the component's refs (the
  recorded track id, the skip-timer slot, the polling and device-wait slots and
  the override map) and returns new refs plus a list of effects. The model adds
  a `phase` field of its own that records which callback ran last. Module
  `PlaybackRuntime` applies those effects to the sets of timers and intervals
  that are live, and runs sequences of events.
- **The auth slice** (`src/store/slices/auth.ts`). It covers the refresh-delay
  arithmetic and the one module-level refresh-timer slot, which
  `scheduleRefreshToken`, `initRefreshTokenTimer` and `clearRefreshTokenTimer`
  manage. The timer callback is split at its `await`, so a logout can land
  between the timer firing and the refresh settling. It also covers the
  reducers, the token choice of `loginToSpotify`, and what `logout` removes.
- **The HTTP client's 401 interceptor** (`src/axios.ts`): pass through,
  re-issue with a refreshed bearer token, or remove two keys and reject. It also
  covers the start-up Authorization header.
- **The log wire format**. This is the payload `log` builds in
  `src/utils/logger.ts`, and the endpoint in `api/log.ts` that answers 405, 200
  or 400 and fills in defaults. A lemma ties the two together.

Timers are handles. The handle a `setTimeout` or `setInterval` call returns is
an input to the step that creates it. `localStorage` and the default headers are
maps. JavaScript truthiness is explicit: the empty string and 0 are false
(module `Js`).

Modules: `Js`, `Browser`, `Json` (shared values), `Effects` (applying an
effect list in order), `WebPlayback`,
`PlaybackRuntime`, `RefreshTimer`, `AuthSlice`, `Interceptor`, `Logger`,
`LogHandler`, `LogWire`.

### Behaviour a reader might expect, and what the code does (the model follows the code)

- **Single-flight refresh.** One might expect the proactive timer and the 401
  path to share one refresh in flight. They do not: the timer callback
  (`auth.ts:137`) and the interceptor (`axios.ts:23`) each call the refresh
  endpoint on their own.
- **Retry bound.** One might expect a request to be retried at most once after
  a 401. The re-issued request goes back through the same interceptor
  (`axios.ts:27`), so the code gives no such bound. The model states no bound.
- **Keys removed on refresh failure.** One might expect a failed renewal to
  sign the user out as logout does, removing all four auth keys. The
  interceptor removes only `refresh_token` and `access_token`
  (`RefreshFailureClearsFewerKeysThanLogout`).
- **Logout during a refresh.** One might expect logout to end the session for
  good. Logout does not wait for a refresh already in flight. A timer callback
  that settles afterwards dispatches `setToken` and arms a new timer
  (`ClearDuringRefreshRearms`, `LogoutDuringRefreshRestoresToken`). A 401
  refresh that settles afterwards writes the Authorization header back
  (`LogoutDuringRefreshRestoresHeader`).
- **Header order in login.** One might expect the user fetch to carry the
  token in both login paths. With a stored token the header is set before
  `fetchUser` is dispatched (`auth.ts:42-45`). With a token from the provider,
  `fetchUser` is dispatched before the header is set (`auth.ts:58-68`), so its
  request can go out without it (`LoginToSpotify`).
- **Pause, then resume.** One might expect resuming the same track to keep the
  skip it had. In the code a pause empties the slot, so the resumed state
  re-arms the skip, and seeks again when the override's start is positive
  (`PauseThenResumeRearms`).
- **A fired skip timer.** The code never empties the slot after a skip timer
  fires. Further unpaused states of the same track therefore do nothing
  (`FiredSkipStaysArmed`); a pause still empties the slot.
- **Repeated device loss.** The device wait overwrites its interval slot
  without clearing the previous interval. Two null states before a device is
  found leave an interval live that nothing clears. A later tick of that
  interval starts a second polling interval
  (`RepeatedDeviceLossLeaksIntervals`).

## Model

| member | source | states |
|---|---|---|
| WebPlayback.BuildPrefix | src/utils/spotify/webPlayback.tsx:46-49 | after the first k `map.set` calls, the keys are exactly those entries' names, and each name maps to the last of them with that name |
| WebPlayback.SetExtendsPrefix | src/utils/spotify/webPlayback.tsx:47-49 | one more `map.set` extends the map of k-1 entries to the map of k entries (a later entry with the same name wins) |
| WebPlayback.BuildOverrides | src/utils/spotify/webPlayback.tsx:46-50 | the override map holds exactly the catalog's names, each with the last entry carrying it |
| WebPlayback.LoadCatalog | src/utils/spotify/webPlayback.tsx:39-56 | a rejected catalog request leaves the map unchanged (initially empty); a resolved one installs the built map |
| WebPlayback.OverrideFor | src/utils/spotify/webPlayback.tsx:79-80 | an override applies only for a truthy track name present in the map |
| WebPlayback.Rearm | src/utils/spotify/webPlayback.tsx:75-93 | cancels the held timer first, records the new id, arms the slot iff the name has an override, seeks only to a positive `timeToMs(start)`, schedules the skip after `duration*1000` ms |
| WebPlayback.HandleState | src/utils/spotify/webPlayback.tsx:58-100 | null state: exactly the held poll's stop (if any) followed by one device wait on the new handle; pause: dispatch, then cancel exactly the held timer, keep the id; same id with a held timer, or a missing/empty id: only the dispatch; otherwise the dispatch followed by exactly `Rearm`'s step; a skip is scheduled only for an override |
| WebPlayback.SeeksOnlyToOverrideStart | src/utils/spotify/webPlayback.tsx:79-85 | whatever state arrives, a seek happens only for an unpaused track with an override, and goes exactly to that override's positive `timeToMs(start)` |
| WebPlayback.PollInterval | src/utils/spotify/webPlayback.tsx:135 | the polling interval is `playerRefreshRateMs` when truthy, else 1000 |
| WebPlayback.BeginDeviceWait | src/utils/spotify/webPlayback.tsx:115-117 | the device wait starts a new interval and overwrites the slot without clearing the old one |
| WebPlayback.DeviceFound | src/utils/spotify/webPlayback.tsx:119-123 | a device-wait tick with a state starts polling on a new interval and clears the interval the slot names |
| WebPlayback.Teardown | src/utils/spotify/webPlayback.tsx:220-225 | clears the polling interval, device-wait interval and skip timer whose handles are in their slots, then disconnects |
| PlaybackRuntime.AtMostOneSkipPending | src/utils/spotify/webPlayback.tsx:62-93 | over any run of events, every pending skip timer is the slot's, so at most one is pending |
| PlaybackRuntime.UnloadedCatalogNeverSkips | src/utils/spotify/webPlayback.tsx:35-55 | while no catalog has loaded, no skip timer is ever held or pending, whatever states arrive |
| PlaybackRuntime.PauseThenResumeRearms | src/utils/spotify/webPlayback.tsx:62-93 | pausing cancels the held timer without touching the id; resuming the same track schedules a new skip, and seeks again when `timeToMs(start)` is positive |
| PlaybackRuntime.FiredSkipStaysArmed | src/utils/spotify/webPlayback.tsx:71-88 | a fired skip timer leaves its handle in the slot, so a further unpaused state of the same track changes nothing |
| PlaybackRuntime.NullStateStopsPolling | src/utils/spotify/webPlayback.tsx:96-135 | when every live interval is the one in its slot, a null state stops the polling interval and the new device wait is live; a device-found tick then puts a new live poll in the slot and clears that wait (its period is stated by `WebPlayback.DeviceFound`) |
| PlaybackRuntime.TeardownClearsAll | src/utils/spotify/webPlayback.tsx:220-225 | when every live timer and interval is the one in its slot, teardown leaves none live |
| PlaybackRuntime.RepeatedDeviceLossLeaksIntervals | src/utils/spotify/webPlayback.tsx:115-123 | two null states before a device is found leave a device-wait interval that teardown does not clear, and two polling intervals can run |
| RefreshTimer.RefreshDelayMs | src/store/slices/auth.ts:135 | the delay is never negative; it is `expiresIn*1000 - 60000` when at least a minute remains, else 0 |
| RefreshTimer.Schedule | src/store/slices/auth.ts:133-143 | cancels the slot's previous timer and schedules exactly one new one, which the slot then holds |
| RefreshTimer.OnFired | src/store/slices/auth.ts:136-142 | with a truthy `access_token` and `expires_in` exactly one `setToken` with that token is dispatched, followed by `Schedule`'s step (the old timer cancelled, one new timer); otherwise nothing happens and the slot is unchanged |
| RefreshTimer.ExpiresInSeconds | src/store/slices/auth.ts:151 | the floor of the remaining milliseconds over 1000 |
| RefreshTimer.InitTimer | src/store/slices/auth.ts:145-156 | schedules iff both keys are stored, the entry has a numeric expiry and at least one whole second remains, and then it is exactly `Schedule`'s step with no dispatch; otherwise changes nothing |
| RefreshTimer.Clear | src/store/slices/auth.ts:158-163 | cancels exactly the held timer and leaves the slot empty |
| RefreshTimer.ClearIsIdempotent | src/store/slices/auth.ts:158-163 | a second clear does nothing |
| RefreshTimer.AtMostOneRefreshPending | src/store/slices/auth.ts:131-163 | over any run of initialisations, firings, refreshes settling (in any order, after any clear) and clears, at most one refresh timer is pending, and it is the slot's |
| RefreshTimer.ClearLeavesNothingPending | src/store/slices/auth.ts:158-163 | after a clear no refresh timer is pending, but a callback already awaiting its refresh is not stopped |
| RefreshTimer.ClearDuringRefreshRearms | src/store/slices/auth.ts:136-142 | a clear between the timer firing and the refresh settling empties the slot, yet the settled callback dispatches the token and leaves a new timer pending |
| AuthSlice.InitialState | src/store/slices/auth.ts:16-21 | starts with the stored token when truthy, no user, not loaded, not requesting |
| AuthSlice.Reduce | src/store/slices/auth.ts:100-126 | each reducer sets only its own fields and keeps the rest: login sets the token and `requesting = !loaded`; fetchUser sets the user and clears requesting; logout resets token, user, playerLoaded and requesting |
| AuthSlice.LoginToSpotify | src/store/slices/auth.ts:29-73 | the user token wins over the anonymous one; a stored token skips the provider, sets the header first and only then fetches the user (only for a user token), and never redirects; otherwise the provider's token decides: the token is requested first, the user fetch comes before any header write, no token redirects with the caller's `anonymous` flag, a token sets the header and timer and never redirects; the header is only set to the truthy token the payload carries |
| AuthSlice.LoginLeavesRequesting | src/store/slices/auth.ts:112-115 | after login, `requesting` is true exactly on the stored-token path |
| AuthSlice.LogoutSession | src/store/slices/auth.ts:88-95 | removes exactly the four auth keys, deletes only the Authorization header, clears the refresh timer |
| AuthSlice.LogoutMatchesReload | src/store/slices/auth.ts:16-21 | from any state, logout leaves the slice, and the presence of the Authorization header, as a fresh page load would set them up from the storage logout leaves |
| AuthSlice.LogoutDuringRefreshRestoresToken | src/store/slices/auth.ts:136-142 | a timer callback settling after logout dispatches `setToken`, which puts the token back into the logged-out slice, and arms a new timer |
| AuthSlice.LogoutDuringRefreshRestoresHeader | src/axios.ts:21-27 | a 401 refresh settling after logout writes the Authorization header back that logout deleted |
| AuthSlice.RefreshFailureClearsFewerKeysThanLogout | src/axios.ts:28-31 | a failed 401 refresh removes strictly fewer keys than logout: the anonymous token and code verifier stay |
| Interceptor.InitialHeaders | src/axios.ts:7-16 | the Authorization header is present iff a stored token is truthy, and carries it as a bearer token |
| Interceptor.OnFulfilled | src/axios.ts:19 | a successful response passes through unchanged, with no refresh and no state change |
| Interceptor.OnRejected | src/axios.ts:20-35 | non-401 errors (and errors without a response) are rejected unchanged with no refresh; a 401 refreshes once, then re-issues with the new bearer token in both headers, or removes two keys and rejects |
| Interceptor.ClearTokens | src/axios.ts:29-30 | removes exactly `refresh_token` and `access_token` |
| Interceptor.ReissuedHeaderCarriesToken | src/axios.ts:25-27 | the re-issued request's Authorization header is "Bearer " followed by exactly the new token |
| Logger.ParseLevel | src/utils/logger.ts:1-5 | the level values (`LevelValue`) are exactly "info", "warn" and "error", and each parses back to its level |
| Logger.LevelValueRoundTrip | src/utils/logger.ts:1-5 | each level's value parses back to that level |
| Logger.Payload | src/utils/logger.ts:11-22 | a POST to `/api/log` with a JSON content type whose body has exactly message, level and context, with INFO and `{}` as defaults |
| Logger.Log | src/utils/logger.ts:11-30 | `log` always returns normally; a synchronous failure sends nothing, an asynchronous one still sends; each failure only writes to the console |
| LogHandler.Destructure | api/log.ts:18 | level defaults to "info" and context to `{}` only when absent; message is taken as is |
| LogHandler.Handle | api/log.ts:3-36 | non-POST: 405 with `Allow: POST`, nothing logged; unparsable or null body: 400 with an error body, nothing logged; otherwise 200 `{status:'ok'}` and the record is logged |
| LogHandler.RecordObject | api/log.ts:20-25 | the printed record has exactly timestamp, level, message and context, with an undefined message left out |
| LogWire.LogRoundTrip | src/utils/logger.ts:13-22 | what `log` sends is accepted with 200, and the record carries the same message, level and context; the endpoint's defaults never apply |

## Left out

- Rendering and SDK wiring are not modelled. This covers the React hooks and refs, the Spotify SDK `Player` construction and its `.on` listeners, the error callbacks, the `ready` handler's dispatches and `transferPlayback`, `waitForSpotify`, `setupWaitingForDevice`, auto-connect, and the lifecycle callbacks of `initializePlayer`. They are plumbing with no decisions. Events are an input datatype instead.
- `timeToMs` is not part of this model. Its source is not available, so it is a function parameter.
- `login.getRefreshToken`, `login.getToken`, `login.logInWithSpotify`, `getFromLocalStorageWithExpiry` and `authService.fetchUser` are not part of this model either. Their results are inputs, or effects that name the call.
- The `log` calls inside the auth thunks are left out. They are fire-and-forget and do not affect any decision.
- Overlapping `getCurrentState` promises from one device-wait interval are left out, because each tick is one atomic event. Promise timing in the playback controller is left out too, including handleState's `await` of the device wait.
- Interceptor.OnRejected: the interceptor is one atomic step, so its `await` of the refresh is not split. The consequence of a logout landing inside it is stated separately, by `AuthSlice.LogoutDuringRefreshRestoresHeader`.
- JSON text is left out. A body is a `Json` value, or `None` when it does not parse. The model treats `JSON.stringify` followed by `JSON.parse` as the identity. `JSON.parse(stored).expiry` is a parameter.
- Numbers are left out of the float model. JavaScript numbers are modelled as unbounded integers, so NaN, fractional durations and float rounding are not modelled. A NaN expiry counts as "no expiry".
- Real timers are left out. A timer is a handle in a set of live handles. When a timer fires and when an interval ticks are events of the runtime, not clock time.
- The thunks' pending and rejected actions are left out. They reach the reducer only as `Unhandled`, and leave the state unchanged.

=== FILE: auth_slice.dfy ===
/**
 * The auth slice: its state and reducers, the token choice of the
 * `loginToSpotify` thunk, and what `logout` does to storage, headers and the
 * refresh timer.
 */
module AuthSlice {
  import opened Js
  import opened Browser
  import RefreshTimer
  import Interceptor

  /** The user profile `fetchUser` returns; only its identity matters here. */
  datatype User = User(id: string)

  datatype AuthState = AuthState(token: Option<string>, playerLoaded: bool, user: Option<User>, requesting: bool)

  /** What `loginToSpotify` fulfils with. */
  datatype LoginPayload = LoginPayload(token: Option<string>, loaded: bool)

  datatype Action =
    | SetRequesting(requesting: bool)
    | SetToken(token: Option<string>)
    | SetPlayerLoaded(playerLoaded: bool)
    | LoginFulfilled(payload: LoginPayload)
    | FetchUserFulfilled(user: User)
    | LogoutFulfilled
    | Unhandled                      // any other action, e.g. a pending or rejected thunk

  /**
   * The initial state; `stored` is what the expiry-aware storage read returned
   * for `access_token`, and `|| undefined` turns an empty string into no token.
   */
  function InitialState(stored: Option<string>): (s: AuthState)
    ensures s.token.Some? <==> Truthy(stored)
    ensures s.token.Some? ==> s.token == stored
    ensures !s.playerLoaded && !s.requesting && s.user.None?
  {
    AuthState(if Truthy(stored) then stored else None, false, None, false)
  }

  /** The slice reducer: each action sets its own fields and no others. */
  function Reduce(s: AuthState, a: Action): (r: AuthState)
    ensures a.SetRequesting? ==> r == s.(requesting := a.requesting)
    ensures a.SetToken? ==> r == s.(token := a.token)
    ensures a.SetPlayerLoaded? ==> r == s.(playerLoaded := a.playerLoaded)
    ensures a.LoginFulfilled? ==> r == s.(token := a.payload.token, requesting := !a.payload.loaded)
    ensures a.FetchUserFulfilled? ==> r == s.(user := Some(a.user), requesting := false)
    ensures a.LogoutFulfilled? ==> r == AuthState(None, false, None, false)
    ensures a.Unhandled? ==> r == s
  {
    match a
    case SetRequesting(b) => s.(requesting := b)
    case SetToken(t) => s.(token := t)
    case SetPlayerLoaded(b) => s.(playerLoaded := b)
    case LoginFulfilled(p) => s.(token := p.token, requesting := !p.loaded)
    case FetchUserFulfilled(u) => s.(user := Some(u), requesting := false)
    case LogoutFulfilled => s.(token := None, user := None, playerLoaded := false, requesting := false)
    case Unhandled => s
  }

  // ---------------------------------------------------------------------------
  // loginToSpotify

  datatype LoginEffect =
    | SetAuthHeader(token: string)   // axios default Authorization header
    | FetchUser                      // dispatch(fetchUser())
    | InitRefreshTimer               // initRefreshTokenTimer(dispatch)
    | RequestToken                   // await login.getToken()
    | RedirectToLogin(anonymous: bool)

  /** What `login.getToken()` resolved to: a token, and whether it belongs to a user. */
  datatype Obtained = Obtained(token: Option<string>, forUser: bool)

  datatype Login = Login(payload: LoginPayload, effects: seq<LoginEffect>)

  /**
   * The `loginToSpotify` thunk. `userToken` and `anonymousToken` are what the
   * expiry-aware storage reads returned; `obtained` is consulted only when
   * neither is truthy.
   */
  function LoginToSpotify(anonymous: bool, userToken: Option<string>, anonymousToken: Option<string>,
                          obtained: Obtained): (r: Login)
    // A stored token: the user's wins over the anonymous one, no new token is requested.
    ensures Truthy(userToken) ==> r.payload == LoginPayload(userToken, false)
    ensures !Truthy(userToken) && Truthy(anonymousToken) ==> r.payload == LoginPayload(anonymousToken, false)
    ensures (Truthy(userToken) || Truthy(anonymousToken)) ==>
              && RequestToken !in r.effects
              && SetAuthHeader(r.payload.token.value) in r.effects
              && InitRefreshTimer in r.effects
              && (FetchUser in r.effects <==> Truthy(userToken))
              && (forall e :: e in r.effects ==> !e.RedirectToLogin?)
              // The header is set before `fetchUser` is dispatched, so its request carries the token.
              && r.effects[0] == SetAuthHeader(r.payload.token.value)
    // No stored token: the provider's answer decides.
    ensures !Truthy(userToken) && !Truthy(anonymousToken) ==>
              && r.payload == LoginPayload(obtained.token, true)
              && RequestToken in r.effects
              && (FetchUser in r.effects <==> obtained.forUser)
              && (RedirectToLogin(anonymous) in r.effects <==> !Truthy(obtained.token))
              && (InitRefreshTimer in r.effects <==> Truthy(obtained.token))
              && (Truthy(obtained.token) ==> SetAuthHeader(obtained.token.value) in r.effects)
              && (forall e :: e in r.effects && e.RedirectToLogin? ==>
                    e == RedirectToLogin(anonymous) && !Truthy(obtained.token))
              // The token is requested first; `fetchUser` is dispatched before the header is set.
              && r.effects[0] == RequestToken
              && (forall i, j ::
                    0 <= i < |r.effects| && 0 <= j < |r.effects| && r.effects[i] == FetchUser && r.effects[j].SetAuthHeader?
                    ==> i < j)
    // The header is only ever set to the truthy token the payload carries.
    ensures forall e :: e in r.effects && e.SetAuthHeader? ==> r.payload.token == Some(e.token) && e.token != ""
  {
    var token := Or(userToken, anonymousToken);
    if Truthy(token) then
      var fetch := if Truthy(userToken) then [FetchUser] else [];
      Login(LoginPayload(token, false), [SetAuthHeader(token.value)] + fetch + [InitRefreshTimer])
    else
      var fetch := if obtained.forUser then [FetchUser] else [];
      var finish := if !Truthy(obtained.token) then [RedirectToLogin(anonymous)]
                    else [SetAuthHeader(obtained.token.value), InitRefreshTimer];
      Login(LoginPayload(obtained.token, true), [RequestToken] + fetch + finish)
  }

  /**
   * After the thunk fulfils, `requesting` stays true exactly on the stored-token
   * path (`requesting = !loaded`); only the provider path clears it here.
   */
  lemma LoginLeavesRequesting(s: AuthState, anonymous: bool, userToken: Option<string>,
                              anonymousToken: Option<string>, obtained: Obtained)
    ensures var r := LoginToSpotify(anonymous, userToken, anonymousToken, obtained);
            Reduce(s, LoginFulfilled(r.payload)).requesting <==> (Truthy(userToken) || Truthy(anonymousToken))
  {
  }

  // ---------------------------------------------------------------------------
  // logout

  /** What logout touches: storage, the default headers and the refresh timer slot. */
  datatype Session = Session(storage: Storage, headers: Headers, refreshSlot: Option<Handle>)

  datatype Logout = Logout(session: Session, timerEffects: seq<RefreshTimer.Effect>)

  /** The keys logout removes. */
  const LogoutKeys: set<string> := {AccessTokenKey, PublicAccessTokenKey, RefreshTokenKey, CodeVerifierKey}

  /**
   * The `logout` thunk: clear the refresh timer, remove the four auth keys,
   * delete the default Authorization header.
   */
  function LogoutSession(s: Session): (r: Logout)
    ensures r.session.storage.Keys == s.storage.Keys - LogoutKeys
    ensures forall k :: k in r.session.storage ==> r.session.storage[k] == s.storage[k]
    ensures r.session.headers.Keys == s.headers.Keys - {AuthorizationHeader}
    ensures forall k :: k in r.session.headers ==> r.session.headers[k] == s.headers[k]
    ensures r.session.refreshSlot.None?
    ensures RefreshTimer.CancelsSlot(r.timerEffects, s.refreshSlot)
    ensures RefreshTimer.Scheduled(r.timerEffects) == 0
  {
    var cleared := RefreshTimer.Clear(s.refreshSlot);
    var storage := RemoveItem(RemoveItem(RemoveItem(RemoveItem(s.storage,
                     AccessTokenKey), PublicAccessTokenKey), RefreshTokenKey), CodeVerifierKey);
    var headers := map k | k in s.headers && k != AuthorizationHeader :: s.headers[k];
    Logout(Session(storage, headers, cleared.slot), cleared.effects)
  }

  /**
   * Logging out leaves the slice and the Authorization header as a fresh page
   * load would set them up from the storage logout leaves behind, whatever
   * the state was. `read` is the expiry-aware storage read of `access_token`,
   * which finds nothing when the key is absent.
   */
  lemma LogoutMatchesReload(st: AuthState, sess: Session, read: Storage -> Option<string>)
    requires forall storage :: AccessTokenKey !in storage ==> read(storage).None?
    ensures var out := LogoutSession(sess).session;
            && Reduce(st, LogoutFulfilled) == InitialState(read(out.storage))
            && (AuthorizationHeader in out.headers <==>
                AuthorizationHeader in Interceptor.InitialHeaders(read(out.storage)))
  {
  }

  /**
   * `logout` does not wait for a refresh already in flight. A timer callback
   * that settles after logout has fulfilled dispatches `setToken`, which puts
   * a token back into the slice, and arms a new timer in the emptied slot.
   */
  lemma LogoutDuringRefreshRestoresToken(st: AuthState, sess: Session, token: string, expiresIn: int, h: Handle)
    requires token != "" && expiresIn != 0
    ensures var out := LogoutSession(sess).session;
            var loggedOut := Reduce(st, LogoutFulfilled);
            var settled := RefreshTimer.OnFired(out.refreshSlot,
                             Some(RefreshTimer.RefreshData(Some(token), Some(expiresIn))), h);
            && loggedOut.token.None?
            && settled.effects[0] == RefreshTimer.DispatchSetToken(token)
            && Reduce(loggedOut, SetToken(Some(settled.effects[0].token))).token == Some(token)
            && settled.slot == Some(h)
  {
  }

  /**
   * Likewise a 401 refresh that settles after logout writes the default
   * Authorization header back, although logout deleted it.
   */
  lemma LogoutDuringRefreshRestoresHeader(sess: Session, error: Interceptor.HttpError, token: string)
    requires Interceptor.IsUnauthorized(error) && token != ""
    ensures var out := LogoutSession(sess).session;
            var r := Interceptor.OnRejected(error, Interceptor.RefreshReturned(Some(token)), out.headers, out.storage);
            && AuthorizationHeader !in out.headers
            && r.outcome.Reissue?
            && r.defaults[AuthorizationHeader] == Bearer(token)
  {
  }

  /**
   * A failed 401 refresh removes only `refresh_token` and `access_token`:
   * strictly fewer keys than logout, leaving the anonymous token and the code
   * verifier behind.
   */
  lemma RefreshFailureClearsFewerKeysThanLogout()
    ensures Interceptor.RefreshFailureKeys < LogoutKeys
    ensures LogoutKeys - Interceptor.RefreshFailureKeys == {PublicAccessTokenKey, CodeVerifierKey}
  {
  }
}

=== FILE: browser.dfy ===
/**
 * The browser facilities the core touches, reduced to values: `localStorage`
 * is a map from key to raw string, the client's default request headers are a
 * map, and a timer or interval is identified by the handle that `setTimeout` /
 * `setInterval` returned.
 */
module Browser {
  import opened Js

  /** `localStorage`: key to the raw string `getItem` would return. */
  type Storage = map<string, string>

  /** A header collection such as `axios.defaults.headers.common`. */
  type Headers = map<string, string>

  /** A timer or interval handle; which value the runtime hands out is an input. */
  type Handle = nat

  /** A timer slot (a ref holding a handle or null) as the set of handles it names. */
  function SlotSet(slot: Option<Handle>): (s: set<Handle>)
    ensures slot.None? ==> s == {}
    ensures slot.Some? ==> s == {slot.value}
  {
    if slot.Some? then {slot.value} else {}
  }

  const AccessTokenKey: string := "access_token"
  const PublicAccessTokenKey: string := "public_access_token"
  const RefreshTokenKey: string := "refresh_token"
  const CodeVerifierKey: string := "code_verifier"

  const AuthorizationHeader: string := "Authorization"

  /** The value of the Authorization header for a bearer token. */
  function Bearer(token: string): (v: string)
    ensures |v| == |token| + 7
    ensures v[..7] == "Bearer " && v[7..] == token
  {
    "Bearer " + token
  }

  /** `localStorage.getItem(key)` used as a condition: present and non-empty. */
  predicate StoredTruthy(storage: Storage, key: string) {
    key in storage && storage[key] != ""
  }

  /** `localStorage.removeItem(key)`: that key goes, every other entry stays as it was. */
  function RemoveItem(storage: Storage, key: string): (r: Storage)
    ensures r.Keys == storage.Keys - {key}
    ensures forall k :: k in r ==> r[k] == storage[k]
  {
    map k | k in storage && k != key :: storage[k]
  }
}

=== FILE: effects.dfy ===
/**
 * Applying a list of effects in order, shared by the playback runtime and the
 * refresh-timer runtime: each supplies how one effect changes its state.
 */
module Effects {
  /** The state after applying `effects` one by one, starting from `w`. */
  function ApplyAll<W, E>(apply: (W, E) -> W, w: W, effects: seq<E>): W
    decreases |effects|
  {
    if |effects| == 0 then w else ApplyAll(apply, apply(w, effects[0]), effects[1..])
  }

  /** Applying two lists is applying the first, then the second. */
  lemma {:induction false} ApplyConcat<W, E>(apply: (W, E) -> W, w: W, a: seq<E>, b: seq<E>)
    ensures ApplyAll(apply, w, a + b) == ApplyAll(apply, ApplyAll(apply, w, a), b)
    decreases |a|
  {
    if |a| > 0 {
      assert (a + b)[0] == a[0];
      assert (a + b)[1..] == a[1..] + b;
      ApplyConcat(apply, apply(w, a[0]), a[1..], b);
    } else {
      assert a + b == b;
    }
  }

  /** A one-effect list is that effect. */
  lemma ApplySingle<W, E>(apply: (W, E) -> W, w: W, e: E)
    ensures ApplyAll(apply, w, [e]) == apply(w, e)
  {
    assert [e][1..] == [];
  }
}

=== FILE: interceptor.dfy ===
/**
 * The HTTP client's authorization handling: the Authorization header it
 * starts with, and the response interceptor that answers a 401 by fetching a
 * new token and re-issuing the request.
 */
module Interceptor {
  import opened Js
  import opened Browser

  datatype Response = Response(status: int, data: string)

  /** A request configuration (`error.config`). */
  datatype Request = Request(url: string, headers: Headers)

  /** A failed request: the server's response, when there was one, and the request. */
  datatype HttpError = HttpError(response: Option<Response>, config: Request)

  /**
   * How `getRefreshToken()` settled: it threw, or it resolved to data whose
   * `access_token` may be missing (`None` also stands for null/undefined data).
   */
  datatype RefreshResult = RefreshThrew(reason: string) | RefreshReturned(accessToken: Option<string>)

  datatype Rejection = OriginalError(error: HttpError) | RefreshError(reason: string)

  datatype Outcome =
    | PassThrough(response: Response)
    | Reissue(request: Request)      // return axios(error.config)
    | Reject(rejection: Rejection)   // Promise.reject

  /** The interceptor's decision with the client state it leaves behind. */
  datatype Interception = Interception(outcome: Outcome, defaults: Headers, storage: Storage, refreshCalls: nat)

  /** The keys a failed 401 refresh removes. */
  const RefreshFailureKeys: set<string> := {RefreshTokenKey, AccessTokenKey}

  /**
   * The client's default headers at start-up; `stored` is what the
   * expiry-aware storage read returned for `access_token`.
   */
  function InitialHeaders(stored: Option<string>): (h: Headers)
    ensures AuthorizationHeader in h <==> Truthy(stored)
    ensures AuthorizationHeader in h ==> h[AuthorizationHeader] == Bearer(stored.value)
    ensures h.Keys <= {AuthorizationHeader}
  {
    if Truthy(stored) then map[AuthorizationHeader := Bearer(stored.value)] else map[]
  }

  /** The success handler: a response comes back unchanged and nothing else happens. */
  function OnFulfilled(response: Response, defaults: Headers, storage: Storage): (r: Interception)
    ensures r.outcome.PassThrough? && r.outcome.response == response
    ensures r.defaults == defaults && r.storage == storage && r.refreshCalls == 0
  {
    Interception(PassThrough(response), defaults, storage, 0)
  }

  predicate IsUnauthorized(error: HttpError) {
    error.response.Some? && error.response.value.status == 401
  }

  /**
   * The error handler. `refresh` is how the one `getRefreshToken()` call
   * settles; it is consulted only for a 401.
   */
  function OnRejected(error: HttpError, refresh: RefreshResult, defaults: Headers, storage: Storage): (r: Interception)
    // Anything but a 401 (including no response at all) is rejected unchanged, with no refresh.
    ensures !IsUnauthorized(error) ==>
              r == Interception(Reject(OriginalError(error)), defaults, storage, 0)
    // A 401 refreshes exactly once.
    ensures IsUnauthorized(error) ==> r.refreshCalls == 1
    // A new token: both the default and the request header carry it, and the request goes again.
    ensures IsUnauthorized(error) && refresh.RefreshReturned? && Truthy(refresh.accessToken) ==>
              && r.outcome == Reissue(error.config.(headers :=
                   error.config.headers[AuthorizationHeader := Bearer(refresh.accessToken.value)]))
              && r.defaults.Keys == defaults.Keys + {AuthorizationHeader}
              && r.defaults[AuthorizationHeader] == Bearer(refresh.accessToken.value)
              && (forall k :: k in defaults && k != AuthorizationHeader ==> r.defaults[k] == defaults[k])
              && r.storage == storage
    // No new token: two keys go and the interceptor rejects.
    ensures IsUnauthorized(error) && !(refresh.RefreshReturned? && Truthy(refresh.accessToken)) ==>
              && r.outcome.Reject?
              && r.storage.Keys == storage.Keys - RefreshFailureKeys
              && (forall k :: k in r.storage ==> r.storage[k] == storage[k])
              && r.defaults == defaults
              && (refresh.RefreshThrew? ==> r.outcome.rejection == RefreshError(refresh.reason))
              && (refresh.RefreshReturned? ==> r.outcome.rejection == OriginalError(error))
  {
    if IsUnauthorized(error) then
      match refresh
      case RefreshReturned(token) =>
        if Truthy(token) then
          var header := Bearer(token.value);
          var config := error.config.(headers := error.config.headers[AuthorizationHeader := header]);
          Interception(Reissue(config), defaults[AuthorizationHeader := header], storage, 1)
        else
          // `throw error`: the catch block sees the original error.
          Interception(Reject(OriginalError(error)), defaults, ClearTokens(storage), 1)
      case RefreshThrew(reason) =>
        Interception(Reject(RefreshError(reason)), defaults, ClearTokens(storage), 1)
    else
      Interception(Reject(OriginalError(error)), defaults, storage, 0)
  }

  /** The catch block's two removals. */
  function ClearTokens(storage: Storage): (r: Storage)
    ensures r.Keys == storage.Keys - RefreshFailureKeys
    ensures forall k :: k in r ==> r[k] == storage[k]
  {
    RemoveItem(RemoveItem(storage, RefreshTokenKey), AccessTokenKey)
  }

  /**
   * A re-issued request carries exactly the refreshed token: the token can be
   * read back from its Authorization header.
   */
  lemma ReissuedHeaderCarriesToken(error: HttpError, token: string, defaults: Headers, storage: Storage)
    requires IsUnauthorized(error) && token != ""
    ensures var r := OnRejected(error, RefreshReturned(Some(token)), defaults, storage);
            var h := r.outcome.request.headers[AuthorizationHeader];
            h[..7] == "Bearer " && h[7..] == token
  {
  }
}

=== FILE: js.dfy ===
/**
 * JavaScript value conventions shared by every module of the model.
 *
 * `undefined`/`null` become `None`. The source tests values with plain
 * truthiness (`if (token)`, `a || b`), under which the empty string and the
 * number 0 are false; the predicates below make that explicit.
 */
module Js {

  datatype Option<+T> = None | Some(value: T) {

    /** The value, or `default` when absent (JavaScript `??`-style access). */
    function GetOr(default: T): T {
      match this
      case Some(v) => v
      case None => default
    }
  }

  /** Truthiness of an optional string: present and not "". */
  predicate Truthy(s: Option<string>) {
    s.Some? && s.value != ""
  }

  /** Truthiness of an optional number: present and not 0 (NaN is not modelled). */
  predicate TruthyNum(n: Option<int>) {
    n.Some? && n.value != 0
  }

  /** JavaScript `a || b` on optional strings: `a` when truthy, otherwise `b`. */
  function Or(a: Option<string>, b: Option<string>): (r: Option<string>)
    ensures Truthy(a) ==> r == a
    ensures !Truthy(a) ==> r == b
    ensures Truthy(r) <==> Truthy(a) || Truthy(b)
  {
    if Truthy(a) then a else b
  }
}

=== FILE: json.dfy ===
/**
 * JSON values as `JSON.parse` produces them and `JSON.stringify` consumes
 * them. The text form is not modelled: a body is either a value or text that
 * does not parse.
 */
module Json {
  import opened Js

  datatype Json =
    | JNull
    | JBool(b: bool)
    | JNumber(n: int)
    | JString(s: string)
    | JArray(items: seq<Json>)
    | JObject(fields: map<string, Json>)

  /**
   * Reading `value[key]` from a parsed value other than null: an object's own
   * field, and `undefined` (`None`) for every other kind of value.
   */
  function Property(value: Json, key: string): (r: Option<Json>)
    requires !value.JNull?
    ensures r.Some? <==> value.JObject? && key in value.fields
    ensures r.Some? ==> r.value == value.fields[key]
  {
    match value
    case JObject(fields) => if key in fields then Some(fields[key]) else None
    case _ => None
  }
}

=== FILE: log_handler.dfy ===
/**
 * The serverless log endpoint: method check, body parse and destructuring
 * with defaults, the record it prints and the reply.
 */
module LogHandler {
  import opened Js
  import opened Browser
  import opened Json

  datatype ReplyBody = Text(text: string) | JsonBody(value: Json)

  datatype Reply = Reply(status: int, headers: Headers, body: ReplyBody)

  /** The record printed per accepted request; `message` may be undefined. */
  datatype LogRecord = LogRecord(timestamp: string, level: Json, message: Option<Json>, context: Json)

  datatype Handled = Handled(reply: Reply, record: Option<LogRecord>)

  const MethodNotAllowed: Reply := Reply(405, map["Allow" := "POST"], Text("Method Not Allowed"))
  const Accepted: Reply := Reply(200, map["Content-Type" := "application/json"],
                                 JsonBody(JObject(map["status" := JString("ok")])))
  const BadRequest: Reply := Reply(400, map["Content-Type" := "application/json"],
                                   JsonBody(JObject(map["error" := JString("Bad Request: Invalid JSON")])))

  /**
   * `const { message, level = 'info', context = {} } = parsed`: a default
   * applies only when the field is absent (a parsed value is never undefined,
   * so an explicit null is kept).
   */
  function Destructure(parsed: Json, timestamp: string): (r: LogRecord)
    requires !parsed.JNull?
    ensures r.timestamp == timestamp
    ensures r.message == Property(parsed, "message")
    ensures Property(parsed, "level").Some? ==> r.level == Property(parsed, "level").value
    ensures Property(parsed, "level").None? ==> r.level == JString("info")
    ensures Property(parsed, "context").Some? ==> r.context == Property(parsed, "context").value
    ensures Property(parsed, "context").None? ==> r.context == JObject(map[])
  {
    LogRecord(timestamp,
              Property(parsed, "level").GetOr(JString("info")),
              Property(parsed, "message"),
              Property(parsed, "context").GetOr(JObject(map[])))
  }

  /**
   * The handler. `body` is the request body after `JSON.parse` (`None` when
   * it throws); `timestamp` is `new Date().toISOString()`.
   */
  function Handle(httpMethod: string, body: Option<Json>, timestamp: string): (r: Handled)
    ensures httpMethod != "POST" ==>
              && r.reply.status == 405 && r.reply.headers == map["Allow" := "POST"]
              && r.reply.body == Text("Method Not Allowed") && r.record.None?
    ensures httpMethod == "POST" && (body.None? || body.value.JNull?) ==>
              && r.reply.status == 400 && r.reply.body.JsonBody? && r.reply.body.value.JObject?
              && "error" in r.reply.body.value.fields
              && r.record.None?
    ensures httpMethod == "POST" && body.Some? && !body.value.JNull? ==>
              && r.reply.status == 200
              && r.reply.body == JsonBody(JObject(map["status" := JString("ok")]))
              && r.record == Some(Destructure(body.value, timestamp))
    ensures r.record.Some? <==> r.reply.status == 200
  {
    if httpMethod != "POST" then Handled(MethodNotAllowed, None)
    else match body
      case None => Handled(BadRequest, None)
      case Some(parsed) =>
        if parsed.JNull? then Handled(BadRequest, None)   // destructuring null throws
        else Handled(Accepted, Some(Destructure(parsed, timestamp)))
  }

  /**
   * The printed line `JSON.stringify({timestamp, level, message, context})`:
   * those four fields, except that an undefined message is dropped.
   */
  function RecordObject(rec: LogRecord): (fields: map<string, Json>)
    ensures fields.Keys == {"timestamp", "level", "context"} + (if rec.message.Some? then {"message"} else {})
    ensures fields["timestamp"] == JString(rec.timestamp)
    ensures fields["level"] == rec.level && fields["context"] == rec.context
    ensures rec.message.Some? ==> fields["message"] == rec.message.value
  {
    var base := map["timestamp" := JString(rec.timestamp), "level" := rec.level, "context" := rec.context];
    if rec.message.Some? then base["message" := rec.message.value] else base
  }
}

=== FILE: log_wire.dfy ===
/**
 * The client logger and the log endpoint together: what `log` sends is what
 * the endpoint records.
 */
module LogWire {
  import opened Js
  import opened Json
  import Logger
  import LogHandler

  /**
   * Whatever `log` is called with, the request it sends is accepted, and the
   * record carries the same message, level and context. The client always
   * sends `level` and `context`, so the endpoint's own defaults never apply.
   */
  lemma LogRoundTrip(message: string, level: Option<Logger.LogLevel>, context: Option<Logger.Context>,
                     timestamp: string)
    ensures var req := Logger.Payload(message, level, context);
            var h := LogHandler.Handle(req.httpMethod, Some(req.body), timestamp);
            && h.reply.status == 200
            && h.record.Some?
            && h.record.value.message == Some(JString(message))
            && h.record.value.level.JString?
            && Logger.ParseLevel(h.record.value.level.s) == Some(level.GetOr(Logger.Info))
            && h.record.value.context == JObject(context.GetOr(map[]))
            && h.record.value.timestamp == timestamp
  {
    var req := Logger.Payload(message, level, context);
    assert Property(req.body, "level").Some? && Property(req.body, "context").Some?;
    Logger.LevelValueRoundTrip(level.GetOr(Logger.Info));
  }
}

=== FILE: logger.dfy ===
/**
 * The client-side logger: its three levels and the request `log` sends to the
 * log endpoint.
 */
module Logger {
  import opened Js
  import opened Browser
  import opened Json

  datatype LogLevel = Info | Warn | Error

  /** The enum's string values. */
  function LevelValue(level: LogLevel): string {
    match level
    case Info => "info"
    case Warn => "warn"
    case Error => "error"
  }

  /** The level a wire string names, if any: the inverse of `LevelValue`. */
  function ParseLevel(s: string): (r: Option<LogLevel>)
    ensures r.Some? <==> s == "info" || s == "warn" || s == "error"
    ensures r.Some? ==> LevelValue(r.value) == s
  {
    if s == "info" then Some(Info)
    else if s == "warn" then Some(Warn)
    else if s == "error" then Some(Error)
    else None
  }

  /** Each level's value parses back to that level, so the three values are distinct. */
  lemma LevelValueRoundTrip(l: LogLevel)
    ensures ParseLevel(LevelValue(l)) == Some(l)
  {
  }

  /** An arbitrary log context object. */
  type Context = map<string, Json>

  datatype Request = Request(url: string, httpMethod: string, headers: Headers, body: Json)

  const LogEndpoint: string := "/api/log"

  /**
   * The request `log(message, level, context)` sends. An argument left out
   * (`None`) takes its default: INFO and the empty object.
   */
  function Payload(message: string, level: Option<LogLevel>, context: Option<Context>): (r: Request)
    ensures r.url == LogEndpoint && r.httpMethod == "POST"
    ensures r.headers == map["Content-Type" := "application/json"]
    ensures r.body.JObject? && r.body.fields.Keys == {"message", "level", "context"}
    ensures r.body.fields["message"] == JString(message)
    ensures r.body.fields["level"] == JString(LevelValue(level.GetOr(Info)))
    ensures level.None? ==> r.body.fields["level"] == JString("info")
    ensures r.body.fields["context"] == JObject(context.GetOr(map[]))
    ensures context.None? ==> r.body.fields["context"] == JObject(map[])
  {
    var lvl := level.GetOr(Info);
    var ctx := context.GetOr(map[]);
    Request(LogEndpoint, "POST", map["Content-Type" := "application/json"],
            JObject(map["message" := JString(message), "level" := JString(LevelValue(lvl)), "context" := JObject(ctx)]))
  }

  /** How sending went: sent, threw synchronously, or the returned promise rejected. */
  datatype Delivery = Delivered | ThrewSynchronously | Rejected

  /**
   * One call of `log`. Its result type has no failure case: whatever the
   * delivery, the caller gets control back normally; a failure only writes to
   * the developer console.
   */
  datatype LogCall = LogCall(sent: Option<Request>, console: Option<string>)

  const SyncFailureNote: string := "Error in logger utility:"
  const AsyncFailureNote: string := "Failed to send log to server:"

  function Log(message: string, level: Option<LogLevel>, context: Option<Context>, delivery: Delivery): (r: LogCall)
    ensures r.sent.Some? <==> !delivery.ThrewSynchronously?
    ensures r.sent.Some? ==> r.sent.value == Payload(message, level, context)
    ensures r.console.None? <==> delivery.Delivered?
    ensures delivery.ThrewSynchronously? ==> r.console == Some(SyncFailureNote)
    ensures delivery.Rejected? ==> r.console == Some(AsyncFailureNote)
  {
    match delivery
    case Delivered => LogCall(Some(Payload(message, level, context)), None)
    case ThrewSynchronously => LogCall(None, Some(SyncFailureNote))
    case Rejected => LogCall(Some(Payload(message, level, context)), Some(AsyncFailureNote))
  }
}

=== FILE: playback_runtime.dfy ===
/**
 * The web-playback controller placed in a runtime: the set of timers and
 * intervals that are live, the effects of each step applied to them, and
 * runs of events. The properties here relate several steps: at most one skip
 * timer is ever pending, an unloaded catalog never arms one, and what
 * teardown does and does not clear.
 */
module PlaybackRuntime {
  import opened Js
  import opened Browser
  import Effects
  import opened WebPlayback

  /** The controller's refs together with the handles the runtime still has pending. */
  datatype World = World(c: Controller, skips: set<Handle>, polls: set<Handle>, waits: set<Handle>)

  datatype Event =
    | CatalogFetched(result: Option<seq<TrackTimeout>>)     // getTrackTimeout settled
    | StateObserved(state: Option<PlayerState>, newHandle: Handle) // poll tick or player_state_changed
    | DeviceWaitBegun(newHandle: Handle)                     // initializePlayer's wait
    | DeviceFoundTick(newHandle: Handle)                     // a device-wait tick saw a non-null state
    | SkipFired(handle: Handle)                              // a skip timer ran nextTrack
    | Unmounted                                              // the effect cleanup

  const InitialWorld: World := World(Initial, {}, {}, {})

  /** What the runtime does with one effect. */
  function ApplyEffect(w: World, e: Effect): World {
    match e
    case CancelSkip(h) => w.(skips := w.skips - {h})
    case ScheduleSkip(h, _) => w.(skips := w.skips + {h})
    case StopPolling(h) => w.(polls := w.polls - {h})
    case StartPolling(h, _) => w.(polls := w.polls + {h})
    case WaitForDevice(h) => w.(waits := w.waits + {h})
    case StopDeviceWait(h) => w.(waits := w.waits - {h})
    case _ => w
  }

  function ApplyEffects(w: World, effects: seq<Effect>): World {
    Effects.ApplyAll(ApplyEffect, w, effects)
  }

  /** One event: the controller steps and the runtime applies the effects. */
  function Next(w: World, cfg: Config, ev: Event): World {
    match ev
    case CatalogFetched(result) => w.(c := LoadCatalog(w.c, result))
    case StateObserved(obs, h) =>
      var st := HandleState(w.c, obs, cfg, h);
      ApplyEffects(w.(c := st.next), st.effects)
    case DeviceWaitBegun(h) =>
      var st := BeginDeviceWait(w.c, h);
      ApplyEffects(w.(c := st.next), st.effects)
    case DeviceFoundTick(h) =>
      if w.waits == {} then w
      else
        var st := DeviceFound(w.c, cfg, h);
        ApplyEffects(w.(c := st.next), st.effects)
    case SkipFired(h) =>
      // The timer ran; its handle stays in the slot.
      if h in w.skips then w.(skips := w.skips - {h}) else w
    case Unmounted =>
      var st := Teardown(w.c);
      ApplyEffects(w.(c := st.next), st.effects)
  }

  function Run(w: World, cfg: Config, events: seq<Event>): World
    decreases |events|
  {
    if |events| == 0 then w else Run(Next(w, cfg, events[0]), cfg, events[1..])
  }

  // ---------------------------------------------------------------------------
  // Applying effect lists

  /** Effects that are not skip-timer effects leave the pending skips and the refs alone. */
  lemma {:induction false} NoSkipEffects(w: World, effects: seq<Effect>)
    requires forall e :: e in effects ==> !e.CancelSkip? && !e.ScheduleSkip?
    ensures ApplyEffects(w, effects).skips == w.skips
    ensures ApplyEffects(w, effects).c == w.c
    decreases |effects|
  {
    if |effects| > 0 {
      assert effects[0] in effects;
      assert forall e :: e in effects[1..] ==> e in effects;
      NoSkipEffects(ApplyEffect(w, effects[0]), effects[1..]);
    }
  }

  // ---------------------------------------------------------------------------
  // At most one skip timer

  /** Every pending skip timer is the one the slot names. */
  ghost predicate SkipInv(w: World) {
    w.skips <= SlotSet(w.c.skip)
  }

  lemma HandleStateKeepsSkipInv(w: World, cfg: Config, obs: Option<PlayerState>, h: Handle)
    requires SkipInv(w)
    ensures SkipInv(Next(w, cfg, StateObserved(obs, h)))
  {
    var st := HandleState(w.c, obs, cfg, h);
    var w0 := w.(c := st.next);
    match obs
    case None =>
      NoSkipEffects(w0, st.effects);
    case Some(s) =>
      if s.paused {
        Effects.ApplyConcat(ApplyEffect, w0, [DispatchState(s)], CancelSlot(w.c.skip));
        Effects.ApplySingle(ApplyEffect, w0, DispatchState(s));
      } else if Rearms(w.c, s) {
        Effects.ApplyConcat(ApplyEffect, w0, [DispatchState(s)], Rearm(w.c, s, cfg, h).effects);
        Effects.ApplySingle(ApplyEffect, w0, DispatchState(s));
        RearmKeepsSkipInv(w, w0, cfg, s, h);
      } else {
        Effects.ApplySingle(ApplyEffect, w0, DispatchState(s));
      }
  }

  /** The re-arming branch's own effects leave at most the new timer pending. */
  lemma RearmKeepsSkipInv(w: World, w0: World, cfg: Config, s: PlayerState, h: Handle)
    requires SkipInv(w) && Truthy(s.trackId)
    requires w0 == w.(c := Rearm(w.c, s, cfg, h).next)
    ensures ApplyEffects(w0, Rearm(w.c, s, cfg, h).effects).skips <= SlotSet(w0.c.skip)
    ensures ApplyEffects(w0, Rearm(w.c, s, cfg, h).effects).c == w0.c
  {
    var inner := Rearm(w.c, s, cfg, h);
    var cancel := CancelSlot(w.c.skip);
    if w.c.skip.Some? {
      Effects.ApplySingle(ApplyEffect, w0, CancelSkip(w.c.skip.value));
    }
    var w1 := ApplyEffects(w0, cancel);
    assert w1.skips == {} && w1.c == w0.c;
    var o := OverrideFor(w.c.overrides, s.trackName);
    if o.Some? {
      var start := cfg.timeToMs(o.value.start);
      var seek := if start > 0 then [Seek(start)] else [];
      var sched := [ScheduleSkip(h, o.value.duration * 1000)];
      assert inner.effects == cancel + seek + sched;
      Effects.ApplyConcat(ApplyEffect, w0, cancel + seek, sched);
      Effects.ApplyConcat(ApplyEffect, w0, cancel, seek);
      NoSkipEffects(w1, seek);
      Effects.ApplySingle(ApplyEffect, ApplyEffects(w1, seek), ScheduleSkip(h, o.value.duration * 1000));
    } else {
      assert inner.effects == cancel;
    }
  }

  /** Every event keeps the pending skip timers within the slot. */
  lemma NextKeepsSkipInv(w: World, cfg: Config, ev: Event)
    requires SkipInv(w)
    ensures SkipInv(Next(w, cfg, ev))
  {
    match ev
    case CatalogFetched(_) =>
    case StateObserved(obs, h) =>
      HandleStateKeepsSkipInv(w, cfg, obs, h);
    case DeviceWaitBegun(h) =>
      NoSkipEffects(w.(c := BeginDeviceWait(w.c, h).next), BeginDeviceWait(w.c, h).effects);
    case DeviceFoundTick(h) =>
      if w.waits != {} {
        NoSkipEffects(w.(c := DeviceFound(w.c, cfg, h).next), DeviceFound(w.c, cfg, h).effects);
      }
    case SkipFired(_) =>
    case Unmounted =>
      var st := Teardown(w.c);
      var p := if w.c.polling.Some? then [StopPolling(w.c.polling.value)] else [];
      var q := if w.c.deviceWait.Some? then [StopDeviceWait(w.c.deviceWait.value)] else [];
      var w0 := w.(c := st.next);
      assert st.effects == (p + q) + CancelSlot(w.c.skip) + [Disconnect];
      Effects.ApplyConcat(ApplyEffect, w0, (p + q) + CancelSlot(w.c.skip), [Disconnect]);
      Effects.ApplyConcat(ApplyEffect, w0, p + q, CancelSlot(w.c.skip));
      NoSkipEffects(w0, p + q);
  }

  /**
   * From mount onwards, at most one skip timer is pending at any time, and a
   * pending one is the timer the slot holds.
   */
  lemma {:induction false} AtMostOneSkipPending(w: World, cfg: Config, events: seq<Event>)
    requires SkipInv(w)
    ensures SkipInv(Run(w, cfg, events))
    ensures |Run(w, cfg, events).skips| <= 1
    decreases |events|
  {
    if |events| > 0 {
      NextKeepsSkipInv(w, cfg, events[0]);
      AtMostOneSkipPending(Next(w, cfg, events[0]), cfg, events[1..]);
    } else {
      assert |SlotSet(w.c.skip)| <= 1;
      CardinalityOfSubset(w.skips, SlotSet(w.c.skip));
    }
  }

  lemma CardinalityOfSubset(a: set<Handle>, b: set<Handle>)
    requires a <= b
    ensures |a| <= |b|
  {
    assert b == a + (b - a);
  }

  // ---------------------------------------------------------------------------
  // An unloaded catalog

  /** No overrides are loaded, no skip timer is held and none is pending. */
  ghost predicate NoSkips(w: World) {
    w.c.overrides == map[] && w.c.skip.None? && w.skips == {}
  }

  /** An event other than a successful catalog load. */
  predicate KeepsCatalog(ev: Event) {
    !(ev.CatalogFetched? && ev.result.Some?)
  }

  lemma NextKeepsNoSkips(w: World, cfg: Config, ev: Event)
    requires NoSkips(w) && KeepsCatalog(ev)
    ensures NoSkips(Next(w, cfg, ev))
  {
    match ev
    case CatalogFetched(_) =>
    case StateObserved(obs, h) =>
      var st := HandleState(w.c, obs, cfg, h);
      assert !SchedulesSkip(st.effects);
      NoSkipEffects(w.(c := st.next), st.effects);
    case DeviceWaitBegun(h) =>
      NoSkipEffects(w.(c := BeginDeviceWait(w.c, h).next), BeginDeviceWait(w.c, h).effects);
    case DeviceFoundTick(h) =>
      if w.waits != {} {
        NoSkipEffects(w.(c := DeviceFound(w.c, cfg, h).next), DeviceFound(w.c, cfg, h).effects);
      }
    case SkipFired(_) =>
    case Unmounted =>
      NoSkipEffects(w.(c := Teardown(w.c).next), Teardown(w.c).effects);
  }

  /**
   * While the catalog has not loaded (its request failed, or has not settled),
   * no skip timer is ever armed or pending, whatever the player reports.
   */
  lemma {:induction false} UnloadedCatalogNeverSkips(w: World, cfg: Config, events: seq<Event>)
    requires NoSkips(w)
    requires forall i :: 0 <= i < |events| ==> KeepsCatalog(events[i])
    ensures NoSkips(Run(w, cfg, events))
    decreases |events|
  {
    if |events| > 0 {
      NextKeepsNoSkips(w, cfg, events[0]);
      UnloadedCatalogNeverSkips(Next(w, cfg, events[0]), cfg, events[1..]);
    }
  }

  // ---------------------------------------------------------------------------
  // Pause, resume and a fired timer

  /**
   * Pausing and resuming the same track re-arms its skip: the pause empties
   * the slot, so the resumed state seeks again and schedules a new timer.
   */
  lemma PauseThenResumeRearms(c: Controller, cfg: Config, s: PlayerState, h1: Handle, h2: Handle)
    requires !s.paused && Truthy(s.trackId) && c.trackId == s.trackId && c.skip.Some?
    requires OverrideFor(c.overrides, s.trackName).Some?
    ensures var paused := HandleState(c, Some(s.(paused := true)), cfg, h1);
            var resumed := HandleState(paused.next, Some(s), cfg, h2);
            var o := OverrideFor(c.overrides, s.trackName).value;
            && CancelSkip(c.skip.value) in paused.effects
            && paused.next.trackId == c.trackId
            && resumed.next.skip == Some(h2)
            && ScheduleSkip(h2, o.duration * 1000) in resumed.effects
            && (cfg.timeToMs(o.start) > 0 ==> Seek(cfg.timeToMs(o.start)) in resumed.effects)
  {
    var paused := HandleState(c, Some(s.(paused := true)), cfg, h1);
    assert Rearms(paused.next, s);
    var inner := Rearm(paused.next, s, cfg, h2);
    assert forall e :: e in inner.effects ==> e in [DispatchState(s)] + inner.effects;
  }

  /**
   * A skip timer that has fired leaves its handle in the slot, so a further
   * unpaused state of the same track neither cancels nor schedules anything.
   */
  lemma FiredSkipStaysArmed(w: World, cfg: Config, s: PlayerState, h: Handle, h2: Handle)
    requires w.c.skip == Some(h) && h in w.skips
    requires !s.paused && Truthy(s.trackId) && s.trackId == w.c.trackId
    ensures var fired := Next(w, cfg, SkipFired(h));
            var again := Next(fired, cfg, StateObserved(Some(s), h2));
            && h !in fired.skips && fired.c.skip == Some(h)
            && again.c == fired.c && again.skips == fired.skips
  {
    var fired := Next(w, cfg, SkipFired(h));
    Effects.ApplySingle(ApplyEffect, fired, DispatchState(s));
  }

  // ---------------------------------------------------------------------------
  // Device loss, polling and teardown

  /** Every live interval is the one its slot names. */
  ghost predicate IntervalsInSlots(w: World) {
    w.polls <= SlotSet(w.c.polling) && w.waits <= SlotSet(w.c.deviceWait)
  }

  /**
   * A null state stops the live poll and starts exactly one device-wait
   * interval; a device-found tick then puts a new poll in the slot and clears
   * that wait. The poll's period is `DeviceFound`'s concern: the runtime does
   * not record periods.
   */
  lemma NullStateStopsPolling(w: World, cfg: Config, h: Handle, h2: Handle)
    requires IntervalsInSlots(w)
    ensures var lost := Next(w, cfg, StateObserved(None, h));
            && lost.polls == {} && h in lost.waits
            && lost.c.phase == WaitingForDevice && lost.c.deviceWait == Some(h)
            && var found := Next(lost, cfg, DeviceFoundTick(h2));
               && h2 in found.polls && found.c.polling == Some(h2) && found.c.phase == Polling
               && h !in found.waits
  {
    var st := HandleState(w.c, None, cfg, h);
    var w0 := w.(c := st.next);
    var stop := if w.c.polling.Some? then [StopPolling(w.c.polling.value)] else [];
    assert st.effects == stop + [WaitForDevice(h)];
    Effects.ApplyConcat(ApplyEffect, w0, stop, [WaitForDevice(h)]);
    Effects.ApplySingle(ApplyEffect, ApplyEffects(w0, stop), WaitForDevice(h));
    if w.c.polling.Some? {
      Effects.ApplySingle(ApplyEffect, w0, StopPolling(w.c.polling.value));
    }
    var lost := Next(w, cfg, StateObserved(None, h));
    var d := DeviceFound(lost.c, cfg, h2);
    var l0 := lost.(c := d.next);
    var clear := if lost.c.deviceWait.Some? then [StopDeviceWait(lost.c.deviceWait.value)] else [];
    assert d.effects == [StartPolling(h2, PollInterval(cfg.refreshRateMs))] + clear;
    Effects.ApplyConcat(ApplyEffect, l0, [StartPolling(h2, PollInterval(cfg.refreshRateMs))], clear);
    Effects.ApplySingle(ApplyEffect, l0, StartPolling(h2, PollInterval(cfg.refreshRateMs)));
    Effects.ApplySingle(ApplyEffect, ApplyEffects(l0, [StartPolling(h2, PollInterval(cfg.refreshRateMs))]), StopDeviceWait(h));
  }

  /**
   * Teardown clears every timer and interval whose handle is still in its
   * slot; when nothing has leaked, nothing stays live.
   */
  lemma TeardownClearsAll(w: World, cfg: Config)
    requires SkipInv(w) && IntervalsInSlots(w)
    ensures var t := Next(w, cfg, Unmounted);
            t.skips == {} && t.polls == {} && t.waits == {} && t.c.phase == Closed
  {
    var st := Teardown(w.c);
    var w0 := w.(c := st.next);
    var p := if w.c.polling.Some? then [StopPolling(w.c.polling.value)] else [];
    var q := if w.c.deviceWait.Some? then [StopDeviceWait(w.c.deviceWait.value)] else [];
    var k := CancelSlot(w.c.skip);
    assert st.effects == ((p + q) + k) + [Disconnect];
    Effects.ApplyConcat(ApplyEffect, w0, (p + q) + k, [Disconnect]);
    Effects.ApplyConcat(ApplyEffect, w0, p + q, k);
    Effects.ApplyConcat(ApplyEffect, w0, p, q);
    Effects.ApplySingle(ApplyEffect, ApplyEffects(w0, (p + q) + k), Disconnect);
    var w1 := ApplyEffects(w0, p);
    var w2 := ApplyEffects(w1, q);
    if w.c.polling.Some? { Effects.ApplySingle(ApplyEffect, w0, StopPolling(w.c.polling.value)); }
    if w.c.deviceWait.Some? { Effects.ApplySingle(ApplyEffect, w1, StopDeviceWait(w.c.deviceWait.value)); }
    if w.c.skip.Some? { Effects.ApplySingle(ApplyEffect, w2, CancelSkip(w.c.skip.value)); }
  }

  /** A null state while a polling handle is in its slot, as a world update. */
  lemma LostStep(w: World, cfg: Config, h: Handle)
    requires w.c.polling.Some?
    ensures Next(w, cfg, StateObserved(None, h))
         == w.(c := w.c.(phase := WaitingForDevice, deviceWait := Some(h)),
               polls := w.polls - {w.c.polling.value}, waits := w.waits + {h})
  {
    var st := HandleState(w.c, None, cfg, h);
    var w0 := w.(c := st.next);
    Effects.ApplyConcat(ApplyEffect, w0, [StopPolling(w.c.polling.value)], [WaitForDevice(h)]);
    Effects.ApplySingle(ApplyEffect, w0, StopPolling(w.c.polling.value));
    Effects.ApplySingle(ApplyEffect, ApplyEffects(w0, [StopPolling(w.c.polling.value)]), WaitForDevice(h));
  }

  /** A device-found tick while some wait interval is live, as a world update. */
  lemma FoundStep(w: World, cfg: Config, h: Handle)
    requires w.waits != {} && w.c.deviceWait.Some?
    ensures Next(w, cfg, DeviceFoundTick(h))
         == w.(c := w.c.(phase := Polling, polling := Some(h)),
               polls := w.polls + {h}, waits := w.waits - {w.c.deviceWait.value})
  {
    var d := DeviceFound(w.c, cfg, h);
    var w0 := w.(c := d.next);
    var start := StartPolling(h, PollInterval(cfg.refreshRateMs));
    Effects.ApplyConcat(ApplyEffect, w0, [start], [StopDeviceWait(w.c.deviceWait.value)]);
    Effects.ApplySingle(ApplyEffect, w0, start);
    Effects.ApplySingle(ApplyEffect, ApplyEffects(w0, [start]), StopDeviceWait(w.c.deviceWait.value));
  }

  /** Teardown with both interval slots filled and no skip held, as a world update. */
  lemma TeardownStep(w: World, cfg: Config)
    requires w.c.polling.Some? && w.c.deviceWait.Some? && w.c.skip.None?
    ensures Next(w, cfg, Unmounted)
         == w.(c := w.c.(phase := Closed),
               polls := w.polls - {w.c.polling.value}, waits := w.waits - {w.c.deviceWait.value})
  {
    var t := Teardown(w.c);
    var w0 := w.(c := t.next);
    var a := StopPolling(w.c.polling.value);
    var b := StopDeviceWait(w.c.deviceWait.value);
    assert t.effects == ([a] + [b]) + [Disconnect];
    Effects.ApplyConcat(ApplyEffect, w0, [a] + [b], [Disconnect]);
    Effects.ApplyConcat(ApplyEffect, w0, [a], [b]);
    Effects.ApplySingle(ApplyEffect, w0, a);
    Effects.ApplySingle(ApplyEffect, ApplyEffects(w0, [a]), b);
    Effects.ApplySingle(ApplyEffect, ApplyEffects(w0, [a] + [b]), Disconnect);
  }

  /**
   * The device wait does not clear a previous wait interval: two null states
   * before a device is found overwrite the slot, the first interval stays
   * live, a later tick of it starts a second polling interval, and teardown
   * clears neither of the leaked ones.
   */
  lemma RepeatedDeviceLossLeaksIntervals(cfg: Config)
    ensures var w1 := Next(InitialWorld, cfg, DeviceWaitBegun(1));
            var w2 := Next(w1, cfg, DeviceFoundTick(2));
            var w3 := Next(w2, cfg, StateObserved(None, 3));
            var w4 := Next(w3, cfg, StateObserved(None, 4));
            var w5 := Next(w4, cfg, DeviceFoundTick(5));
            var w6 := Next(w5, cfg, DeviceFoundTick(6));
            var w7 := Next(w6, cfg, Unmounted);
            && w4.waits == {3, 4}
            && w6.polls == {5, 6}
            && w7.waits == {3} && w7.polls == {5}
  {
    var w1 := Next(InitialWorld, cfg, DeviceWaitBegun(1));
    Effects.ApplySingle(ApplyEffect, InitialWorld.(c := BeginDeviceWait(Initial, 1).next), WaitForDevice(1));
    assert w1.waits == {1} && w1.polls == {} && w1.c.deviceWait == Some(1) && w1.c.skip == None;
    FoundStep(w1, cfg, 2);
    var w2 := Next(w1, cfg, DeviceFoundTick(2));
    assert w2.waits == {} && w2.polls == {2};
    LostStep(w2, cfg, 3);
    var w3 := Next(w2, cfg, StateObserved(None, 3));
    assert w3.waits == {3} && w3.polls == {} && w3.c.polling == Some(2);
    LostStep(w3, cfg, 4);
    var w4 := Next(w3, cfg, StateObserved(None, 4));
    assert w4.waits == {3, 4} && w4.c.deviceWait == Some(4);
    FoundStep(w4, cfg, 5);
    var w5 := Next(w4, cfg, DeviceFoundTick(5));
    assert w5.waits == {3} && w5.polls == {5};
    FoundStep(w5, cfg, 6);
    var w6 := Next(w5, cfg, DeviceFoundTick(6));
    assert w6.waits == {3} && w6.polls == {5, 6} && w6.c.polling == Some(6) && w6.c.skip == None;
    TeardownStep(w6, cfg);
  }
}

=== FILE: refresh_timer.dfy ===
/**
 * The proactive token refresh of the auth slice: the module-level refresh
 * timer slot, `scheduleRefreshToken`, `initRefreshTokenTimer` and
 * `clearRefreshTokenTimer`, and a runtime in which the timer fires and its
 * refresh settles later.
 */
module RefreshTimer {
  import opened Js
  import opened Browser
  import Effects

  /** What `login.getRefreshToken()` resolved to; `None` when it rejected or resolved to nothing. */
  datatype RefreshData = RefreshData(accessToken: Option<string>, expiresIn: Option<int>)

  datatype Effect =
    | CancelRefresh(handle: Handle)                  // clearTimeout(refreshTokenTimeout)
    | ScheduleRefresh(handle: Handle, delayMs: int)  // setTimeout(refresh, delayMs)
    | DispatchSetToken(token: string)                // authActions.setToken

  /** The refresh timer slot after a call, and what the call did. */
  datatype Step = Step(slot: Option<Handle>, effects: seq<Effect>)

  /** The refresh runs this long before the token expires. */
  const LeadMs: int := 60 * 1000

  /** `Math.max(expiresIn * 1000 - 60 * 1000, 0)`: never negative, one minute early when there is time. */
  function RefreshDelayMs(expiresIn: int): (d: int)
    ensures d >= 0
    ensures expiresIn >= 60 ==> d + LeadMs == expiresIn * 1000
    ensures expiresIn <= 60 ==> d == 0
  {
    if expiresIn * 1000 - LeadMs > 0 then expiresIn * 1000 - LeadMs else 0
  }

  /** The effects cancel exactly the timer the slot holds, if any. */
  predicate CancelsSlot(effects: seq<Effect>, slot: Option<Handle>) {
    && (slot.Some? ==> CancelRefresh(slot.value) in effects)
    && forall e :: e in effects && e.CancelRefresh? ==> slot == Some(e.handle)
  }

  /** How many timers the effects schedule. */
  function Scheduled(effects: seq<Effect>): (n: nat)
    ensures n == 0 <==> forall e :: e in effects ==> !e.ScheduleRefresh?
    ensures n <= |effects|
  {
    if |effects| == 0 then 0
    else
      assert forall e :: e in effects[1..] ==> e in effects;
      (if effects[0].ScheduleRefresh? then 1 else 0) + Scheduled(effects[1..])
  }

  /**
   * `scheduleRefreshToken(expiresIn)`: the previous timer is cancelled before
   * exactly one new one is set, and the slot holds the new one.
   */
  function Schedule(slot: Option<Handle>, expiresIn: int, newHandle: Handle): (r: Step)
    ensures r.slot == Some(newHandle)
    ensures CancelsSlot(r.effects, slot)
    ensures Scheduled(r.effects) == 1
    ensures |r.effects| > 0 && r.effects[|r.effects| - 1] == ScheduleRefresh(newHandle, RefreshDelayMs(expiresIn))
    ensures forall e :: e in r.effects ==> !e.DispatchSetToken?
  {
    var cancel := if slot.Some? then [CancelRefresh(slot.value)] else [];
    var effects := cancel + [ScheduleRefresh(newHandle, RefreshDelayMs(expiresIn))];
    assert Scheduled([ScheduleRefresh(newHandle, RefreshDelayMs(expiresIn))]) == 1;
    assert slot.Some? ==> effects[1..] == [ScheduleRefresh(newHandle, RefreshDelayMs(expiresIn))];
    Step(Some(newHandle), effects)
  }

  /**
   * The timer's callback once `getRefreshToken` has settled: with both a
   * truthy `access_token` and a truthy `expires_in` the token is dispatched
   * and the timer rescheduled; otherwise nothing happens and the slot keeps
   * the handle of the timer that just ran.
   */
  function OnFired(slot: Option<Handle>, data: Option<RefreshData>, newHandle: Handle): (r: Step)
    ensures var ok := data.Some? && Truthy(data.value.accessToken) && TruthyNum(data.value.expiresIn);
            && (!ok ==> r == Step(slot, []))
            && (ok ==> && r.slot == Some(newHandle)
                       && |r.effects| > 0 && r.effects[0] == DispatchSetToken(data.value.accessToken.value)
                       && Scheduled(r.effects) == 1
                       && ScheduleRefresh(newHandle, RefreshDelayMs(data.value.expiresIn.value)) in r.effects
                       && r == Step(Some(newHandle), [DispatchSetToken(data.value.accessToken.value)]
                                    + Schedule(slot, data.value.expiresIn.value, newHandle).effects))
  {
    if data.Some? && Truthy(data.value.accessToken) && TruthyNum(data.value.expiresIn) then
      var s := Schedule(slot, data.value.expiresIn.value, newHandle);
      var effects := [DispatchSetToken(data.value.accessToken.value)] + s.effects;
      assert effects[1..] == s.effects;
      assert s.effects[|s.effects| - 1] in effects;
      Step(s.slot, effects)
    else
      Step(slot, [])
  }

  /** `Math.floor((expiry - Date.now()) / 1000)`; Dafny's `/` by a positive divisor is floor division. */
  function ExpiresInSeconds(expiry: int, now: int): (s: int)
    ensures s * 1000 <= expiry - now < s * 1000 + 1000
  {
    (expiry - now) / 1000
  }

  /**
   * `initRefreshTokenTimer()`. `expiryOf` is `JSON.parse(stored).expiry`:
   * `None` when the stored text does not parse, is not an object, or has no
   * numeric expiry (the thrown error is swallowed and NaN is never > 0).
   */
  function InitTimer(slot: Option<Handle>, storage: Storage, now: int,
                     expiryOf: string -> Option<int>, newHandle: Handle): (r: Step)
    ensures var schedules := && StoredTruthy(storage, AccessTokenKey)
                             && StoredTruthy(storage, RefreshTokenKey)
                             && expiryOf(storage[AccessTokenKey]).Some?
                             && expiryOf(storage[AccessTokenKey]).value - now >= 1000;
            && (!schedules ==> r == Step(slot, []))
            && (schedules ==>
                  var secs := ExpiresInSeconds(expiryOf(storage[AccessTokenKey]).value, now);
                  && secs > 0
                  && r.slot == Some(newHandle)
                  && CancelsSlot(r.effects, slot)
                  && Scheduled(r.effects) == 1
                  && ScheduleRefresh(newHandle, RefreshDelayMs(secs)) in r.effects
                  && r == Schedule(slot, secs, newHandle))
  {
    if !StoredTruthy(storage, AccessTokenKey) || !StoredTruthy(storage, RefreshTokenKey) then
      Step(slot, [])
    else
      match expiryOf(storage[AccessTokenKey])
      case None => Step(slot, [])
      case Some(expiry) =>
        var secs := ExpiresInSeconds(expiry, now);
        if secs > 0 then
          var s := Schedule(slot, secs, newHandle);
          assert s.effects[|s.effects| - 1] in s.effects;
          s
        else Step(slot, [])
  }

  /** `clearRefreshTokenTimer()`: cancels the held timer, if any, and empties the slot. */
  function Clear(slot: Option<Handle>): (r: Step)
    ensures r.slot.None?
    ensures CancelsSlot(r.effects, slot)
    ensures Scheduled(r.effects) == 0
    ensures slot.None? ==> r.effects == []
  {
    if slot.Some? then Step(None, [CancelRefresh(slot.value)]) else Step(None, [])
  }

  /** Clearing twice is clearing once; the second call does nothing. */
  lemma ClearIsIdempotent(slot: Option<Handle>)
    ensures Clear(Clear(slot).slot) == Step(None, [])
  {
  }

  // ---------------------------------------------------------------------------
  // Runtime

  /**
   * The slot, the refresh timers still pending, and the timers whose callback
   * has started and is awaiting `getRefreshToken()`.
   */
  datatype Timers = Timers(slot: Option<Handle>, pending: set<Handle>, awaiting: set<Handle>)

  /**
   * The callback is split at its `await`: `Fired` starts it, `RefreshSettled`
   * runs the rest once the refresh has settled. Anything may happen between
   * the two, a clear included.
   */
  datatype Event =
    | Initialized(storage: Storage, now: int, expiryOf: string -> Option<int>, newHandle: Handle)
    | Fired(handle: Handle)
    | RefreshSettled(handle: Handle, data: Option<RefreshData>, newHandle: Handle)
    | Cleared

  /** What the runtime does with one effect. */
  function ApplyOne(pending: set<Handle>, e: Effect): set<Handle> {
    match e
    case CancelRefresh(h) => pending - {h}
    case ScheduleRefresh(h, _) => pending + {h}
    case DispatchSetToken(_) => pending
  }

  function ApplyEffects(pending: set<Handle>, effects: seq<Effect>): set<Handle> {
    Effects.ApplyAll(ApplyOne, pending, effects)
  }

  function Apply(t: Timers, s: Step): Timers {
    t.(slot := s.slot, pending := ApplyEffects(t.pending, s.effects))
  }

  function Next(t: Timers, ev: Event): Timers {
    match ev
    case Initialized(storage, now, expiryOf, h) => Apply(t, InitTimer(t.slot, storage, now, expiryOf, h))
    case Fired(h) =>
      if h in t.pending then t.(pending := t.pending - {h}, awaiting := t.awaiting + {h}) else t
    case RefreshSettled(h, data, h2) =>
      // The callback reads the slot as it is now, not as it was when the timer fired.
      if h in t.awaiting then Apply(t.(awaiting := t.awaiting - {h}), OnFired(t.slot, data, h2)) else t
    case Cleared => Apply(t, Clear(t.slot))
  }

  function Run(t: Timers, events: seq<Event>): Timers
    decreases |events|
  {
    if |events| == 0 then t else Run(Next(t, events[0]), events[1..])
  }

  /** Every pending refresh timer is the one the slot holds. */
  ghost predicate OnePending(t: Timers) {
    t.pending <= SlotSet(t.slot)
  }

  /** Rescheduling from a slot that covers every pending timer leaves only the new timer pending. */
  lemma ScheduleLeavesOne(pending: set<Handle>, slot: Option<Handle>, expiresIn: int, h: Handle)
    requires pending <= SlotSet(slot)
    ensures ApplyEffects(pending, Schedule(slot, expiresIn, h).effects) == {h}
  {
    var sched := ScheduleRefresh(h, RefreshDelayMs(expiresIn));
    if slot.Some? {
      Effects.ApplyConcat(ApplyOne, pending, [CancelRefresh(slot.value)], [sched]);
      Effects.ApplySingle(ApplyOne, pending, CancelRefresh(slot.value));
      Effects.ApplySingle(ApplyOne, pending - {slot.value}, sched);
    } else {
      assert Schedule(slot, expiresIn, h).effects == [sched];
      Effects.ApplySingle(ApplyOne, pending, sched);
    }
  }

  lemma NextKeepsOnePending(t: Timers, ev: Event)
    requires OnePending(t)
    ensures OnePending(Next(t, ev))
  {
    match ev
    case Initialized(storage, now, expiryOf, h) =>
      if && StoredTruthy(storage, AccessTokenKey) && StoredTruthy(storage, RefreshTokenKey)
         && expiryOf(storage[AccessTokenKey]).Some?
         && ExpiresInSeconds(expiryOf(storage[AccessTokenKey]).value, now) > 0 {
        ScheduleLeavesOne(t.pending, t.slot, ExpiresInSeconds(expiryOf(storage[AccessTokenKey]).value, now), h);
      }
    case Fired(h) =>
    case RefreshSettled(h, data, h2) =>
      if h in t.awaiting && data.Some? && Truthy(data.value.accessToken) && TruthyNum(data.value.expiresIn) {
        var sched := Schedule(t.slot, data.value.expiresIn.value, h2);
        Effects.ApplyConcat(ApplyOne, t.pending, [DispatchSetToken(data.value.accessToken.value)], sched.effects);
        Effects.ApplySingle(ApplyOne, t.pending, DispatchSetToken(data.value.accessToken.value));
        ScheduleLeavesOne(t.pending, t.slot, data.value.expiresIn.value, h2);
      }
    case Cleared =>
      if t.slot.Some? {
        Effects.ApplySingle(ApplyOne, t.pending, CancelRefresh(t.slot.value));
      }
  }

  /**
   * Whatever sequence of initialisations, firings, settled refreshes (with
   * any outcome, in any order) and clears happens, at most one refresh timer
   * is pending, and it is the one the slot holds.
   */
  lemma {:induction false} AtMostOneRefreshPending(t: Timers, events: seq<Event>)
    requires OnePending(t)
    ensures OnePending(Run(t, events))
    ensures |Run(t, events).pending| <= 1
    decreases |events|
  {
    if |events| > 0 {
      NextKeepsOnePending(t, events[0]);
      AtMostOneRefreshPending(Next(t, events[0]), events[1..]);
    } else if t.pending != {} {
      assert t.pending == SlotSet(t.slot);
    }
  }

  /**
   * After a clear, no refresh timer is pending and the slot is empty. A
   * callback already awaiting its refresh is not stopped.
   */
  lemma ClearLeavesNothingPending(t: Timers)
    requires OnePending(t)
    ensures Next(t, Cleared) == Timers(None, {}, t.awaiting)
  {
    if t.slot.Some? {
      Effects.ApplySingle(ApplyOne, t.pending, CancelRefresh(t.slot.value));
    }
  }

  /**
   * A clear that lands while the callback awaits its refresh does not stop it:
   * once the refresh succeeds, the callback dispatches the new token and arms a
   * fresh timer into the emptied slot.
   */
  lemma ClearDuringRefreshRearms(h: Handle, h2: Handle, token: string, expiresIn: int)
    requires token != "" && expiresIn != 0
    ensures var data := Some(RefreshData(Some(token), Some(expiresIn)));
            var cleared := Run(Timers(Some(h), {h}, {}), [Fired(h), Cleared]);
            && cleared == Timers(None, {}, {h})
            && Next(cleared, RefreshSettled(h, data, h2)) == Timers(Some(h2), {h2}, {})
            && OnFired(cleared.slot, data, h2).effects[0] == DispatchSetToken(token)
  {
    var data := Some(RefreshData(Some(token), Some(expiresIn)));
    var t0 := Timers(Some(h), {h}, {});
    var t1 := Next(t0, Fired(h));
    assert t1 == Timers(Some(h), {}, {h});
    Effects.ApplySingle(ApplyOne, {}, CancelRefresh(h));
    var t2 := Next(t1, Cleared);
    assert t2 == Timers(None, {}, {h});
    assert Run(t0, [Fired(h), Cleared]) == Run(t1, [Cleared]) == Run(t2, []);
    var sched := ScheduleRefresh(h2, RefreshDelayMs(expiresIn));
    assert OnFired(None, data, h2).effects == [DispatchSetToken(token), sched];
    Effects.ApplyConcat(ApplyOne, {}, [DispatchSetToken(token)], [sched]);
    Effects.ApplySingle(ApplyOne, {}, DispatchSetToken(token));
    Effects.ApplySingle(ApplyOne, {}, sched);
  }
}

=== FILE: web_playback.dfy ===
/**
 * The web-playback component's decision logic: the per-track auto-advance
 * ("extended timeout") controller, the device-wait / state-polling phases and
 * teardown. Every callback of the component is one pure step from the
 * controller's refs to new refs plus the list of effects it performs.
 */
module WebPlayback {
  import opened Js
  import opened Browser

  /** A track-timeout catalog entry as fetched: name, textual start offset, forced duration in seconds. */
  datatype TrackTimeout = TrackTimeout(name: string, start: string, duration: int)

  /** The value stored per name in the override map. */
  datatype Override = Override(start: string, duration: int)

  /** The override map, keyed by track display name. */
  type Catalog = map<string, Override>

  /** A non-null player state as far as the controller reads it. */
  datatype PlayerState = PlayerState(paused: bool, trackId: Option<string>, trackName: Option<string>)

  datatype Phase = Starting | WaitingForDevice | Polling | Closed

  /**
   * The component's refs: the recorded track id, the skip-timer slot, the
   * polling and device-wait interval slots, the override map, and the phase.
   */
  datatype Controller = Controller(
    trackId: Option<string>,
    skip: Option<Handle>,
    polling: Option<Handle>,
    deviceWait: Option<Handle>,
    overrides: Catalog,
    phase: Phase)

  /** Component properties and imported helpers the controller consults. */
  datatype Config = Config(timeToMs: string -> int, refreshRateMs: Option<int>)

  datatype Effect =
    | DispatchState(state: PlayerState)          // spotifyActions.setState
    | CancelSkip(handle: Handle)                 // clearTimeout of the skip timer
    | Seek(ms: int)                              // playerService.seekToPosition
    | ScheduleSkip(handle: Handle, delayMs: int) // setTimeout(nextTrack, delayMs)
    | StopPolling(handle: Handle)                // clearInterval of the polling interval
    | WaitForDevice(handle: Handle)              // setInterval of the device wait
    | StartPolling(handle: Handle, intervalMs: int)
    | StopDeviceWait(handle: Handle)             // clearInterval of the device wait
    | Disconnect                                 // webPlaybackInstance.current?.disconnect(); nothing without a player

  datatype Step = Step(next: Controller, effects: seq<Effect>)

  /** The refs when the component mounts. */
  const Initial: Controller := Controller(None, None, None, None, map[], Starting)

  // ---------------------------------------------------------------------------
  // Override map

  /**
   * The override map `tracks.forEach(t => map.set(t.name, …))` builds: every
   * name of the list is a key, and a later entry with the same name wins.
   */
  function BuildOverrides(tracks: seq<TrackTimeout>): (m: Catalog)
    ensures forall name :: name in m <==> exists i :: 0 <= i < |tracks| && tracks[i].name == name
    ensures forall i :: 0 <= i < |tracks| && LastBefore(tracks, i, |tracks|) ==>
              m[tracks[i].name] == Override(tracks[i].start, tracks[i].duration)
  {
    BuildPrefix(tracks, |tracks|)
  }

  /**
   * The map after the first `k` calls of `map.set`: it holds exactly the names
   * of those entries, and each name maps to the last of them carrying it.
   */
  function BuildPrefix(tracks: seq<TrackTimeout>, k: nat): (m: Catalog)
    requires k <= |tracks|
    ensures BuiltFrom(m, tracks, k)
  {
    if k == 0 then map[]
    else
      var t := tracks[k - 1];
      var prefix := BuildPrefix(tracks, k - 1);
      SetExtendsPrefix(tracks, k, prefix);
      prefix[t.name := Override(t.start, t.duration)]
  }

  /** `m` is the override map of the first `k` entries of `tracks`. */
  ghost predicate BuiltFrom(m: Catalog, tracks: seq<TrackTimeout>, k: nat)
    requires k <= |tracks|
  {
    && (forall i :: 0 <= i < k ==> tracks[i].name in m)
    && (forall name :: name in m ==> exists i :: 0 <= i < k && tracks[i].name == name)
    && (forall i :: 0 <= i < k && LastBefore(tracks, i, k) ==>
          tracks[i].name in m && m[tracks[i].name] == Override(tracks[i].start, tracks[i].duration))
  }

  /** One more `map.set` extends the map of the first `k - 1` entries to the first `k`. */
  lemma SetExtendsPrefix(tracks: seq<TrackTimeout>, k: nat, prefix: Catalog)
    requires 0 < k <= |tracks|
    requires BuiltFrom(prefix, tracks, k - 1)
    ensures BuiltFrom(prefix[tracks[k - 1].name := Override(tracks[k - 1].start, tracks[k - 1].duration)], tracks, k)
  {
    var t := tracks[k - 1];
    var m := prefix[t.name := Override(t.start, t.duration)];
    forall name | name in m ensures exists i :: 0 <= i < k && tracks[i].name == name {
      if name == t.name {
        assert tracks[k - 1].name == name;
      }
    }
    forall i | 0 <= i < k && LastBefore(tracks, i, k)
      ensures tracks[i].name in m && m[tracks[i].name] == Override(tracks[i].start, tracks[i].duration)
    {
      if i < k - 1 {
        assert tracks[k - 1].name != tracks[i].name;
        assert LastBefore(tracks, i, k - 1);
      }
    }
  }

  /** Entry `i` is the last one among the first `k` with its name. */
  predicate LastBefore(tracks: seq<TrackTimeout>, i: int, k: int)
    requires 0 <= i < k <= |tracks|
  {
    forall j :: i < j < k ==> tracks[j].name != tracks[i].name
  }

  /**
   * The result of the catalog request: `Some(tracks)` when it resolved,
   * `None` when it was rejected. A rejection only logs, so the map keeps its
   * previous value.
   */
  function LoadCatalog(c: Controller, fetched: Option<seq<TrackTimeout>>): (r: Controller)
    ensures fetched.None? ==> r == c
    ensures fetched.Some? ==> r == c.(overrides := BuildOverrides(fetched.value))
  {
    match fetched
    case None => c
    case Some(tracks) => c.(overrides := BuildOverrides(tracks))
  }

  // ---------------------------------------------------------------------------
  // handleState

  /** `trackName && overrides.get(trackName)`: the override that applies, if any. */
  function OverrideFor(overrides: Catalog, name: Option<string>): (o: Option<Override>)
    ensures o.Some? <==> Truthy(name) && name.value in overrides
    ensures o.Some? ==> o.value == overrides[name.value]
  {
    if Truthy(name) && name.value in overrides then Some(overrides[name.value]) else None
  }

  /** `clearTimeout` of the slot's timer when the slot holds one. */
  function CancelSlot(skip: Option<Handle>): (e: seq<Effect>)
    ensures skip.None? ==> e == []
    ensures skip.Some? ==> e == [CancelSkip(skip.value)]
  {
    if skip.Some? then [CancelSkip(skip.value)] else []
  }

  /** Whether an unpaused state re-runs the override logic. */
  predicate Rearms(c: Controller, s: PlayerState) {
    Truthy(s.trackId) && (c.trackId != s.trackId || c.skip.None?)
  }

  predicate SchedulesSkip(effects: seq<Effect>) {
    exists e :: e in effects && e.ScheduleSkip?
  }

  predicate Seeks(effects: seq<Effect>) {
    exists e :: e in effects && e.Seek?
  }

  /** The effects clear exactly the skip timer the slot holds, if any. */
  predicate CancelsSlot(effects: seq<Effect>, slot: Option<Handle>) {
    && (slot.Some? ==> CancelSkip(slot.value) in effects)
    && forall e :: e in effects && e.CancelSkip? ==> slot == Some(e.handle)
  }

  /** The effects clear exactly the polling interval the slot holds, if any. */
  predicate StopsPollingSlot(effects: seq<Effect>, slot: Option<Handle>) {
    && (slot.Some? ==> StopPolling(slot.value) in effects)
    && forall e :: e in effects && e.StopPolling? ==> slot == Some(e.handle)
  }

  /** The effects clear exactly the device-wait interval the slot holds, if any. */
  predicate StopsDeviceWaitSlot(effects: seq<Effect>, slot: Option<Handle>) {
    && (slot.Some? ==> StopDeviceWait(slot.value) in effects)
    && forall e :: e in effects && e.StopDeviceWait? ==> slot == Some(e.handle)
  }

  predicate TouchesPolling(effects: seq<Effect>) {
    exists e :: e in effects && (e.StartPolling? || e.StopPolling? || e.WaitForDevice? || e.StopDeviceWait?)
  }

  /**
   * The new track branch: cancel the old timer, then either seek and arm a
   * skip timer for the override, or leave the slot empty.
   */
  function Rearm(c: Controller, s: PlayerState, cfg: Config, newHandle: Handle): (r: Step)
    requires Truthy(s.trackId)
    ensures r.next.trackId == s.trackId
    ensures r.next.skip.Some? <==> OverrideFor(c.overrides, s.trackName).Some?
    ensures r.next.skip.Some? ==> r.next.skip == Some(newHandle)
    ensures r.next == c.(trackId := r.next.trackId, skip := r.next.skip)
    ensures c.skip.Some? ==> |r.effects| > 0 && r.effects[0] == CancelSkip(c.skip.value)
    ensures CancelsSlot(r.effects, c.skip)
    ensures forall e :: e in r.effects ==> e.CancelSkip? || e.Seek? || e.ScheduleSkip?
    ensures forall e :: e in r.effects && e.Seek? ==>
              var o := OverrideFor(c.overrides, s.trackName);
              o.Some? && e.ms == cfg.timeToMs(o.value.start) && e.ms > 0
    ensures forall e :: e in r.effects && e.ScheduleSkip? ==>
              var o := OverrideFor(c.overrides, s.trackName);
              o.Some? && e == ScheduleSkip(newHandle, o.value.duration * 1000)
    ensures var o := OverrideFor(c.overrides, s.trackName);
            o.Some? ==> (&& ScheduleSkip(newHandle, o.value.duration * 1000) in r.effects
                         && (cfg.timeToMs(o.value.start) > 0 <==> Seek(cfg.timeToMs(o.value.start)) in r.effects))
  {
    var cancel := CancelSlot(c.skip);
    match OverrideFor(c.overrides, s.trackName)
    case Some(info) =>
      var startMs := cfg.timeToMs(info.start);
      var seek := if startMs > 0 then [Seek(startMs)] else [];
      Step(c.(trackId := s.trackId, skip := Some(newHandle)),
           cancel + seek + [ScheduleSkip(newHandle, info.duration * 1000)])
    case None =>
      Step(c.(trackId := s.trackId, skip := None), cancel)
  }

  /**
   * `handleState(state)`: one observed player state, from a poll tick or a
   * `player_state_changed` event. `newHandle` is the handle the runtime returns
   * for the one timer or interval this step may create.
   */
  function HandleState(c: Controller, obs: Option<PlayerState>, cfg: Config, newHandle: Handle): (r: Step)
    // A null state: the poll stops and the device wait starts; nothing else changes.
    ensures obs.None? ==>
              && r.next == c.(phase := WaitingForDevice, deviceWait := Some(newHandle))
              && WaitForDevice(newHandle) in r.effects
              && StopsPollingSlot(r.effects, c.polling)
              && r.effects == (if c.polling.Some? then [StopPolling(c.polling.value)] else []) + [WaitForDevice(newHandle)]
    // A non-null state is always dispatched first and never touches polling.
    ensures obs.Some? ==>
              && |r.effects| > 0 && r.effects[0] == DispatchState(obs.value)
              && r.next.phase == c.phase && r.next.polling == c.polling
              && r.next.deviceWait == c.deviceWait && r.next.overrides == c.overrides
              && !TouchesPolling(r.effects)
    // Pause: the slot empties (cancelling a held timer), the recorded id stays.
    ensures obs.Some? && obs.value.paused ==>
              && r.next == c.(skip := None)
              && r.effects == [DispatchState(obs.value)] + CancelSlot(c.skip)
              && CancelsSlot(r.effects, c.skip)
              && !SchedulesSkip(r.effects) && !Seeks(r.effects)
    // Unpaused without re-arming (missing/empty id, or same id with a held timer): nothing but the dispatch.
    ensures obs.Some? && !obs.value.paused && !Rearms(c, obs.value) ==>
              r.next == c && r.effects == [DispatchState(obs.value)]
    // A skip is only ever scheduled for an unpaused track whose name has an override,
    // and only the timer the slot held is ever cancelled.
    ensures SchedulesSkip(r.effects) ==>
              obs.Some? && !obs.value.paused && OverrideFor(c.overrides, obs.value.trackName).Some?
    ensures forall e :: e in r.effects && e.CancelSkip? ==> c.skip == Some(e.handle)
    // Re-arming is `Rearm` after the dispatch, so it carries all of `Rearm`'s guarantees.
    ensures obs.Some? && !obs.value.paused && Rearms(c, obs.value) ==>
              var inner := Rearm(c, obs.value, cfg, newHandle);
              r == Step(inner.next, [DispatchState(obs.value)] + inner.effects)
    // Re-arming: the slot is armed exactly when the name has an override.
    ensures obs.Some? && !obs.value.paused && Rearms(c, obs.value) ==>
              && r.next.trackId == obs.value.trackId
              && (r.next.skip.Some? <==> OverrideFor(c.overrides, obs.value.trackName).Some?)
              && CancelsSlot(r.effects, c.skip)
    // With an override: seek to the start only when it is positive, and skip after `duration` seconds.
    ensures obs.Some? && !obs.value.paused && Rearms(c, obs.value) ==>
              var o := OverrideFor(c.overrides, obs.value.trackName);
              o.Some? ==> (&& r.next.skip == Some(newHandle)
                           && ScheduleSkip(newHandle, o.value.duration * 1000) in r.effects
                           && (cfg.timeToMs(o.value.start) > 0 <==> Seek(cfg.timeToMs(o.value.start)) in r.effects))
  {
    match obs
    case None =>
      var stop := if c.polling.Some? then [StopPolling(c.polling.value)] else [];
      Step(c.(phase := WaitingForDevice, deviceWait := Some(newHandle)), stop + [WaitForDevice(newHandle)])
    case Some(s) =>
      if s.paused then
        Step(c.(skip := None), [DispatchState(s)] + CancelSlot(c.skip))
      else if Rearms(c, s) then
        var inner := Rearm(c, s, cfg, newHandle);
        Step(inner.next, [DispatchState(s)] + inner.effects)
      else
        Step(c, [DispatchState(s)])
  }

  /** Whatever state arrives, a seek only ever goes to the positive start offset of the track's override. */
  lemma SeeksOnlyToOverrideStart(c: Controller, obs: Option<PlayerState>, cfg: Config, newHandle: Handle)
    ensures var r := HandleState(c, obs, cfg, newHandle);
            forall e :: e in r.effects && e.Seek? ==>
              && obs.Some? && !obs.value.paused
              && var o := OverrideFor(c.overrides, obs.value.trackName);
                 o.Some? && e.ms == cfg.timeToMs(o.value.start) && e.ms > 0
  {
  }

  // ---------------------------------------------------------------------------
  // Device wait, polling and teardown

  /** `playerRefreshRateMs || 1000`. */
  function PollInterval(rate: Option<int>): (ms: int)
    ensures TruthyNum(rate) ==> ms == rate.value
    ensures !TruthyNum(rate) ==> ms == 1000
    ensures ms != 0
  {
    if TruthyNum(rate) then rate.value else 1000
  }

  /**
   * The initial `waitForDeviceToBeSelected()` of `initializePlayer`: a new
   * device-wait interval overwrites the slot.
   */
  function BeginDeviceWait(c: Controller, newHandle: Handle): (r: Step)
    ensures r.next == c.(phase := WaitingForDevice, deviceWait := Some(newHandle))
    ensures r.effects == [WaitForDevice(newHandle)]
  {
    Step(c.(phase := WaitingForDevice, deviceWait := Some(newHandle)), [WaitForDevice(newHandle)])
  }

  /**
   * A device-wait tick that saw a non-null state: polling starts on a new
   * interval and the interval the slot names is cleared.
   */
  function DeviceFound(c: Controller, cfg: Config, newHandle: Handle): (r: Step)
    ensures r.next == c.(phase := Polling, polling := Some(newHandle))
    ensures |r.effects| > 0 && r.effects[0] == StartPolling(newHandle, PollInterval(cfg.refreshRateMs))
    ensures StopsDeviceWaitSlot(r.effects, c.deviceWait)
    ensures !SchedulesSkip(r.effects) && !Seeks(r.effects)
  {
    var clear := if c.deviceWait.Some? then [StopDeviceWait(c.deviceWait.value)] else [];
    Step(c.(phase := Polling, polling := Some(newHandle)),
         [StartPolling(newHandle, PollInterval(cfg.refreshRateMs))] + clear)
  }

  /**
   * The effect cleanup: clear the polling interval, the device-wait interval
   * and the skip timer whenever their slots hold a handle, then disconnect.
   * The refs themselves are left as they are.
   */
  function Teardown(c: Controller): (r: Step)
    ensures r.next == c.(phase := Closed)
    ensures |r.effects| > 0 && r.effects[|r.effects| - 1] == Disconnect
    ensures StopsPollingSlot(r.effects, c.polling)
    ensures StopsDeviceWaitSlot(r.effects, c.deviceWait)
    ensures CancelsSlot(r.effects, c.skip)
    ensures !SchedulesSkip(r.effects) && !Seeks(r.effects)
    ensures forall e :: e in r.effects ==> !e.StartPolling? && !e.WaitForDevice?
  {
    var p := if c.polling.Some? then [StopPolling(c.polling.value)] else [];
    var w := if c.deviceWait.Some? then [StopDeviceWait(c.deviceWait.value)] else [];
    Step(c.(phase := Closed), p + w + CancelSlot(c.skip) + [Disconnect])
  }
}
